=== FILE: README.md ===
# Airdrop claim page — state machine model

This project models the claim page of the Sismo Connect on-chain airdrop
tutorial (`front/src/app/page.tsx`). The page connects a wallet, obtains a
proof response from the Sismo Connect widget, and submits `claimWithSismo`
to the airdrop contract. Its only logic is an implicit state machine. The
state is four React state hooks (`loading`, `error`, `amountClaimed`,
`responseBytes`), the wallet facts the wagmi hooks report (connected, chain,
address) and the URL query.

The model is functional. `Session.State` is an immutable record. Each
event is a pure function in `Transitions`: the two effects, the proof
callback, the claim handler, the reset handler, and the wallet's own
connect and disconnect. `PageView.Render` maps a state to what the page
shows. `Traces.Step` wires these together as React and the page do:
- an effect runs only after a render in which one of its dependencies
  changed (`[chain]` for the chain effect; the simulation error object and
  the connection flag for the simulation effect, the object's identity
  being a serial number each report carries);
- a click acts only through a rendered, enabled button;
- a claim settles only while one is in flight;
- the proof callback is accepted in every state, not only while the proof
  panel that renders the widget is shown: a late callback still reaches the
  page's setter.
`Transitions.Mount` is the first render with the chain effect's mount-time
run.

Library results enter as parameters:
- the required chain (`CHAIN`) is a `ChainConfig(id, name)`;
- a simulation error arrives already passed through `formatError`;
- a claim's outcome is `SuccessReceipt(amount)` (the amount already passed
  through `formatEther`), `OtherReceipt` or `Thrown(message)`.

The claim handler is split at its first `await`. `ClaimBegin` is the
synchronous start. `ClaimSettle` is the end after the wallet and chain calls.
`ClaimAirdrop` is both with nothing in between. Other events can arrive
while a claim is in flight, and `Traces` models that.

Behaviours the page does not have, and that the model therefore does not
have either:
- The proof callback stores any response it gets. It does not check that the
  response was requested for the current address.
- A receipt whose status is not success sets no error. The page only clears
  the error when the claim starts, so the claim button is enabled again.
- A thrown failure leaves its message as the error. The claim button stays
  disabled (`Boolean(error)`) until something clears the error. On the
  required chain that takes a switch to another chain and back, because the
  chain effect runs only when the chain changes. Even then the button comes
  back only if the simulation on the required chain reports no error: a
  revert that still holds is reported afresh and sets the error again.
- The claimed value is read from the receipt's first log, not matched by
  event signature.
- Reset does not lower `loading`. A claim still in flight when reset is
  clicked settles later into the reset state.
- A wallet that disconnects by itself, outside reset, keeps the response,
  the amount and the error for the next connection.

## Model

| member | source | states |
|---|---|---|
| `Session.Initial` | front/src/app/page.tsx:60-69 | On first render the session is disconnected, idle, and has no response, amount or error. |
| `Session.OffersSwitchIff` | front/src/app/page.tsx:222 | The `error.slice(0, 16) === "Please switch to"` test holds exactly for errors that begin with "Please switch to", whatever their length. |
| `Session.MismatchOffersSwitch` | front/src/app/page.tsx:91 | Every chain-mismatch message is non-empty and passes the switch-chain test, whatever the chain's name. |
| `Transitions.ChainError` | front/src/app/page.tsx:91-92 | The chain rule gives an empty error exactly when the reported chain is the required one; an absent chain counts as a mismatch. Otherwise the error is the mismatch message and offers a chain switch. |
| `Transitions.ChainChanged` | front/src/app/page.tsx:90-93 | The chain effect records the chain and overwrites the error per the chain rule: empty exactly on the required chain, otherwise exactly the mismatch message, which offers a switch. No other field changes. |
| `Transitions.Mount` | front/src/app/page.tsx:60-93 | The first render starts disconnected, idle and without response or amount. The chain effect's mount-time run leaves an empty error exactly on the required chain, and otherwise exactly the mismatch message, which offers a switch. |
| `Transitions.SimulationErrorReported` | front/src/app/page.tsx:95-99 | A simulation error changes the error only when the wallet is connected, and then to the formatted message. No error, or no connection, leaves the state as it was. Nothing but the error ever changes. |
| `Transitions.ContractCallInputs` | front/src/app/page.tsx:75-84 | A call is prepared exactly when a response and a chain are both present. It calls `claimWithSismo` with that response as its only argument, on that chain. |
| `Transitions.ResponseReceived` | front/src/app/page.tsx:192-194 | The proof callback stores the response it is given, and every other field, the query included, stays as it was. |
| `Transitions.ClaimBegin` | front/src/app/page.tsx:102-105 | Without an address the claim handler leaves the whole state unchanged. With one, it clears the error and raises `loading`, and changes nothing else. |
| `Transitions.ClaimSettle` | front/src/app/page.tsx:106-127 | Every settled claim lowers `loading`. A throw sets the error to its message and keeps the amount. A success receipt records the amount. Any other receipt changes only `loading`. |
| `Transitions.ClaimAirdrop` | front/src/app/page.tsx:102-128 | A claim attempt without an address changes nothing. One that runs always ends with `loading` false. A throw sets the error and keeps the response and the amount, so the same response can be retried. A success records the amount with no error. Any other receipt leaves only `loading` false and the error cleared. No attempt touches the connection, chain, address, response or query: when the chain is wrong at click time (line 108), a failed switch is the `Thrown` outcome and a successful one reaches the page only as a later chain report. |
| `Transitions.Reset` | front/src/app/page.tsx:131-139 | Reset disconnects and clears the amount, the response and the error. Its query is the old one with every `sismoConnectResponseCompressed` entry deleted and every other pair kept in its original order. Afterwards no contract call is prepared. |
| `Transitions.ResetIdempotent` | front/src/app/page.tsx:131-139 | Resetting an already reset session changes nothing more. |
| `Transitions.ResetKeepsPlainQuery` | front/src/app/page.tsx:136-138 | Reset leaves a query without a proof response exactly as it was. |
| `Transitions.Connect` | front/src/app/page.tsx:69-71 | A wallet connection sets the connected flag and the address. Every other field, chain and query included, is kept. |
| `Transitions.Disconnect` | front/src/app/page.tsx:69 | A wallet disconnect outside reset clears the connected flag and the address. Every other field is kept. |
| `UrlQuery.Delete` | front/src/app/page.tsx:137 | Deleting a query key leaves no value under that key and every other key's values in their original order. Exactly the deleted key's entries are gone. |
| `UrlQuery.DeleteSingle` | front/src/app/page.tsx:137 | Deleting from a single pair drops it exactly when it carries the key. |
| `UrlQuery.DeleteAppend` | front/src/app/page.tsx:137 | Deleting from a concatenation is concatenating the deletions. With `DeleteSingle` this fixes the result, so kept pairs keep their order across keys. |
| `UrlQuery.DeleteAbsent` | front/src/app/page.tsx:137 | Deleting a key the query does not hold returns the query unchanged. |
| `UrlQuery.DeleteIdempotent` | front/src/app/page.tsx:137 | Deleting a key twice is the same as deleting it once. |
| `PageView.Render` | front/src/app/page.tsx:150-233 | Each main panel is shown exactly when its render condition holds. The claim button is shown exactly with the claim panel, and enabled exactly when also not loading and with no error. The error panel is shown exactly when connected, unclaimed and with an error. The switch-chain button is shown exactly when the error panel is and the error starts with "Please switch to". Reset is shown exactly while connected. |
| `PageView.PanelsPartition` | front/src/app/page.tsx:150-211 | In every state exactly one of the four main panels is shown: not connected, connected without response, response without amount, response with amount. |
| `PageView.ClaimedOffersNoClaim` | front/src/app/page.tsx:201-224 | Once an amount is recorded, neither the claim button, the error panel nor the switch-chain button is shown. |
| `Traces.SimulationEffect` | front/src/app/page.tsx:95-99 | The simulation effect reruns only after a render in which the hook's error object or the connection flag changed; then a connected page takes the new error's formatted message, and only a connected page with an error report changes its error. Otherwise the state is left as it was, and in any case nothing but the error changes. |
| `Traces.Step` | front/src/app/page.tsx:90-99 | The chain effect runs only when the reported chain differs from the last one. The simulation effect runs only when its error object or the connection changes, so a reconnect of a connected wallet leaves the error alone. The claim click acts only on an enabled button (205) and reset only on a shown one (229-233). A settlement only ends a claim in flight. Only claims move `loading`, and only a settled claim or a reset moves the amount. |
| `Traces.MountIsConsistent` | front/src/app/page.tsx:150-165 | The page starts on the connect panel with no claim button, holding an address exactly while connected. |
| `Traces.RunKeepsConsistent` | front/src/app/page.tsx:69 | Over any run of events, the session holds an address exactly while it is connected. |
| `Traces.EnabledClickStartsClaim` | front/src/app/page.tsx:205 | A click on the enabled claim button always starts a claim, and the button is disabled right after. |
| `Traces.InFlightStaysInFlight` | front/src/app/page.tsx:104-127 | While a claim is in flight, no events other than its settlement lower `loading`, and the claim button is never enabled. |
| `Traces.InFlightBlocksSecondClaim` | front/src/app/page.tsx:205 | At every point before the claim in flight settles, the claim button is not enabled, so no second claim can start. |
| `Traces.ChainReportDecidesSwitch` | front/src/app/page.tsx:219-224 | While connected and unclaimed, after a report of a new chain the switch-chain button is offered exactly when that chain is not the required one. |
| `Traces.ChainReportsKeepChainError` | front/src/app/page.tsx:90-93 | Once the error agrees with the chain rule, any run of chain reports keeps it so, whether or not a report changes the chain. The chain ends as the last report says. |
| `Traces.LastChainReportDecides` | front/src/app/page.tsx:90-93 | Over a run of chain reports whose first one changes the chain, the chain and the error are those the last report alone determines. |
| `Traces.ProofResponseReadiesClaim` | front/src/app/page.tsx:192-194 | A non-empty response received while connected and unclaimed brings up the claim panel. With a chain present, the prepared call carries that response. |
| `Traces.FailedClaimKeepsResponse` | front/src/app/page.tsx:123-127 | A claim that throws a non-empty message keeps the response, the amount and the claim panel. It shows the message and leaves the claim button disabled. |
| `Traces.FailedClaimStaysBlocked` | front/src/app/page.tsx:205 | After a failed claim, no run without a chain report, reset, disconnect or an empty simulation message clears the error or enables the claim button. |
| `Traces.SwitchAwayAndBackRetries` | front/src/app/page.tsx:75-99 | On the required chain with a response and no amount, a switch to another chain and back, followed by the fresh simulation on the required chain, keeps the response. The error ends as that simulation's message, or empty if it reports none. The claim button comes back exactly when the simulation reports no error, or one formatted as "". |
| `Traces.NewSimulationErrorRerunsEffect` | front/src/app/page.tsx:95-99 | While connected, a new simulation error object sets its message as the error: the hook's first error report as well as one replacing an earlier error, even an earlier error with the same message. |
| `Traces.OtherReceiptChangesNothing` | front/src/app/page.tsx:109-122 | A claim started from the enabled button whose receipt is not a success leaves the page exactly as it was. |
| `Traces.SuccessfulClaimShowsClaimed` | front/src/app/page.tsx:111-121 | A successful claim with a non-empty amount records it and ends on the claimed panel, with no claim button. |
| `Traces.ClaimedIsFinal` | front/src/app/page.tsx:201-211 | Once an amount is recorded and no claim is in flight, no sequence of events short of a reset starts another claim or changes the amount. |
| `Traces.DisconnectKeepsSession` | front/src/app/page.tsx:150 | A wallet that disconnects by itself sends the page to the connect panel, but the response, the amount and the query survive. |
| `Traces.ResetEndsSession` | front/src/app/page.tsx:229-233 | Reset, offered while connected, returns to the connect panel. It leaves no error, response, amount or query proof response, and no reset button. |

## Left out

- Wallet and chain plumbing (`useConnect`, `useNetwork`, `switchNetworkAsync`, `writeAsync`, `waitForTransaction`) is asynchronous I/O into libraries. Only its outcomes appear, as event parameters.
- `fundMyAccountOnLocalFork`, `signMessage` and `formatError` come from the application's own `@/utils/misc`, which is not part of this model. `formatError`'s result is a parameter, the formatted error message.
- `decodeEventLog` and `formatEther` are viem library code. Their combined result is a parameter, the formatted claimed amount.
- `ClaimAirdrop`: the error after a thrown failure is non-empty only when the formatted message is non-empty, because `formatError` is not part of this model.
- The required chain's id and name come from `mumbaiFork` in a module that is not part of this model. They are a `ChainConfig` parameter.
- The contract address comes from a deployment file that is not part of this model. The ABI merge also comes from outside this model. `CallInputs` has neither.
- The Sismo Connect widget (request building, redirect, reading the compressed response from the URL) and its cryptography are an external component. Only its `onResponseBytes` callback is modelled.
- Connector buttons (`!connector.ready || isLoading`) depend on connector readiness and pending-connection flags kept by the wallet library. They are not in the view.
- JSX markup, CSS, button labels and `window.history.replaceState` are presentation. Only the query change is modelled.
- `Traces.Step` compares chains by id. React compares the `chain` object the network hook returns, so a hook that returns a new object for the same chain would rerun the chain effect; that hook is not part of this model.
- Effects that fire in the same render are separate steps, in the order their dependencies change. React runs them in declaration order within one commit.
- JavaScript strings are UTF-16 code-unit sequences. The model uses Dafny strings, which does not matter for the ASCII prefix test.

=== FILE: options.dfy ===
/** An optional value, standing for the page's `undefined`-able hook results
    (the connected chain, the account address, a simulation error). */
module Options {

  datatype Option<+T> = None | Some(value: T)
}

=== FILE: page_view.dfy ===
/** What the page renders for a state: one main panel, the claim button, the
    error panel with its switch-chain button, and the reset button. */
module PageView {
  import opened Session

  /** The four main panels, in render order. */
  datatype Panel = ConnectWallet | RequestProof | ClaimReady | Claimed

  datatype Button = Hidden | Disabled | Enabled

  datatype View = View(
    panel: Panel,
    claimButton: Button,
    errorShown: bool,
    switchChainShown: bool,
    resetShown: bool)

  /** The render conditions of the page, each written as the page writes it. */
  predicate ConnectPanelShown(s: State) { !s.isConnected }
  predicate ProofPanelShown(s: State) { s.isConnected && s.responseBytes == "" }
  predicate ClaimPanelShown(s: State)
  {
    s.isConnected && s.responseBytes != "" && s.amountClaimed == ""
  }
  predicate ClaimedPanelShown(s: State)
  {
    s.isConnected && s.responseBytes != "" && s.amountClaimed != ""
  }
  predicate ErrorPanelShown(s: State)
  {
    s.isConnected && s.amountClaimed == "" && s.error != ""
  }

  /** The claim button's `disabled` attribute: `loading || Boolean(error)`. */
  predicate ClaimDisabled(s: State) { s.loading || s.error != "" }

  /** The rendered view. Each element is shown exactly when its render
      condition holds, so the panels partition the states. */
  function Render(s: State): (v: View)
    ensures v.panel == ConnectWallet <==> ConnectPanelShown(s)
    ensures v.panel == RequestProof <==> ProofPanelShown(s)
    ensures v.panel == ClaimReady <==> ClaimPanelShown(s)
    ensures v.panel == Claimed <==> ClaimedPanelShown(s)
    ensures v.claimButton != Hidden <==> ClaimPanelShown(s)
    ensures v.claimButton == Enabled <==> ClaimPanelShown(s) && !s.loading && s.error == ""
    ensures v.errorShown <==> ErrorPanelShown(s)
    ensures v.switchChainShown <==> ErrorPanelShown(s) && SwitchPrefix <= s.error
    ensures v.resetShown <==> s.isConnected
  {
    var panel :=
      if !s.isConnected then ConnectWallet
      else if s.responseBytes == "" then RequestProof
      else if s.amountClaimed == "" then ClaimReady
      else Claimed;
    var claimButton :=
      if panel != ClaimReady then Hidden
      else if ClaimDisabled(s) then Disabled
      else Enabled;
    var errorShown := ErrorPanelShown(s);
    View(panel, claimButton, errorShown, errorShown && OffersSwitch(s.error), s.isConnected)
  }

  /** Exactly one of the four main render conditions holds in every state. */
  lemma PanelsPartition(s: State)
    ensures ConnectPanelShown(s) || ProofPanelShown(s) || ClaimPanelShown(s) || ClaimedPanelShown(s)
    ensures !(ConnectPanelShown(s) && ProofPanelShown(s))
    ensures !(ConnectPanelShown(s) && ClaimPanelShown(s))
    ensures !(ConnectPanelShown(s) && ClaimedPanelShown(s))
    ensures !(ProofPanelShown(s) && ClaimPanelShown(s))
    ensures !(ProofPanelShown(s) && ClaimedPanelShown(s))
    ensures !(ClaimPanelShown(s) && ClaimedPanelShown(s))
  {
  }

  /** Once an amount is recorded, the page offers no claim and no error. */
  lemma ClaimedOffersNoClaim(s: State)
    requires s.amountClaimed != ""
    ensures Render(s).claimButton == Hidden
    ensures !Render(s).errorShown && !Render(s).switchChainShown
  {
  }
}

=== FILE: session.dfy ===
/** The claim page's state: the four React state hooks of `Home`, the wallet
    facts the wagmi hooks report, and the URL query. */
module Session {
  import opened Options
  import opened UrlQuery

  /** The single chain the page is built for (the `CHAIN` constant): its
      numeric id and its display name. */
  datatype ChainConfig = ChainConfig(id: int, name: string)

  /** The query parameter that carries the compressed proof response back to
      the page after the proof widget's redirect. */
  const ResponseParam: string := "sismoConnectResponseCompressed"

  /** The fixed opening of every chain-mismatch message; the page compares the
      first 16 characters of the displayed error against it. */
  const SwitchPrefix: string := "Please switch to"

  /** An error object the simulation hook reports. `serial` stands for the
      object's identity, which React compares with `Object.is`: a new
      simulation produces a new object, even with the same message.
      `formatted` is what `formatError` makes of it. */
  datatype SimError = SimError(serial: nat, formatted: string)

  /** `responseBytes`, `amountClaimed` and `error` are strings whose empty
      value means "absent", exactly as the page tests them for truthiness.
      `chainId` and `simulationError` are the values the network and
      simulation hooks gave on the last render; the effects compare against
      them to decide whether their dependencies changed. */
  datatype State = State(
    isConnected: bool,
    chainId: Option<int>,
    address: Option<string>,
    simulationError: Option<SimError>,
    responseBytes: string,
    amountClaimed: string,
    error: string,
    loading: bool,
    query: Query)

  /** The state on first render, before any effect has run. */
  function Initial(q: Query): (s: State)
    ensures !s.isConnected && !s.loading
    ensures s.responseBytes == "" && s.amountClaimed == "" && s.error == ""
    ensures s.query == q && s.chainId.None? && s.address.None? && s.simulationError.None?
  {
    State(false, None, None, None, "", "", "", false, q)
  }

  /** The message the chain effect shows while the wallet is elsewhere. */
  function MismatchMessage(cfg: ChainConfig): (m: string)
    ensures SwitchPrefix <= m
  {
    "Please switch to " + cfg.name + " network"
  }

  /** JavaScript's `s.slice(0, n)` for n >= 0: the first n characters, or the
      whole string when it is shorter. */
  function Slice(s: string, n: nat): (r: string)
    ensures |r| == if |s| < n then |s| else n
    ensures r <= s
  {
    if |s| < n then s else s[..n]
  }

  /** The test that decides whether the switch-chain button accompanies an
      error: its first 16 characters equal the mismatch prefix. */
  predicate OffersSwitch(error: string)
  {
    Slice(error, 16) == SwitchPrefix
  }

  /** The 16-character test accepts exactly the errors that begin with the
      prefix, whatever their length. */
  lemma OffersSwitchIff(error: string)
    ensures OffersSwitch(error) <==> SwitchPrefix <= error
  {
  }

  /** Every mismatch message, whatever the chain's name, passes the test. */
  lemma MismatchOffersSwitch(cfg: ChainConfig)
    ensures OffersSwitch(MismatchMessage(cfg))
    ensures MismatchMessage(cfg) != ""
  {
  }
}

=== FILE: traces.dfy ===
/** The page as an event-driven machine: the events the wallet library, the
    simulation hook, the proof widget and the user deliver, one step per
    event, and runs of events. An effect runs only when one of its
    dependencies changed, a click does something only when its button is
    rendered enabled, and a claim settles only while one is in flight
    (`loading`). */
module Traces {
  import opened Options
  import opened UrlQuery
  import opened Session
  import opened Transitions
  import opened PageView

  datatype Event =
    | WalletConnected(address: string)
    | WalletDisconnected
    | ChainReported(chainId: Option<int>)
    | SimulationReported(report: Option<SimError>)
    | ProofReturned(bytes: string)
    | ClaimClicked
    | ClaimSettled(outcome: ClaimOutcome)
    | ResetClicked

  /** The simulation-error effect as React schedules it: after a render in
      which the hook's error object or the connection flag changed. */
  function SimulationEffect(before: State, after: State): (r: State)
    ensures r == after.(error := r.error)
    ensures r.error != after.error ==> after.isConnected && after.simulationError.Some?
    ensures before.simulationError == after.simulationError && before.isConnected == after.isConnected
            ==> r == after
    ensures (before.simulationError != after.simulationError || before.isConnected != after.isConnected)
            && after.isConnected && after.simulationError.Some?
            ==> r.error == after.simulationError.value.formatted
  {
    if before.simulationError == after.simulationError && before.isConnected == after.isConnected
    then after
    else SimulationErrorReported(after, after.simulationError)
  }

  function Step(cfg: ChainConfig, s: State, e: Event): (r: State)
    // the chain effect runs only when the reported chain changed
    ensures e.ChainReported? ==> r.chainId == e.chainId
    ensures e.ChainReported? && e.chainId == s.chainId ==> r == s
    ensures e.ChainReported? && e.chainId != s.chainId ==> r.error == ChainError(cfg, e.chainId)
    // the simulation effect runs only when its error or the connection changed
    ensures e.SimulationReported? ==> r.simulationError == e.report
    ensures e.SimulationReported? && e.report == s.simulationError ==> r == s
    ensures e.WalletConnected? && s.isConnected ==> r.error == s.error
    // clicks act only through rendered, enabled buttons
    ensures e.ClaimClicked? && Render(s).claimButton != Enabled ==> r == s
    ensures e.ResetClicked? && !Render(s).resetShown ==> r == s
    // settlement only ends a claim in flight
    ensures e.ClaimSettled? && !s.loading ==> r == s
    ensures e.ClaimSettled? && s.loading ==> !r.loading
    // only a claim moves `loading`; only a settled claim or a reset moves the amount
    ensures r.loading != s.loading ==> e.ClaimClicked? || e.ClaimSettled?
    ensures r.amountClaimed != s.amountClaimed ==> e.ClaimSettled? || e.ResetClicked?
  {
    match e
    case WalletConnected(address) => SimulationEffect(s, Connect(s, address))
    case WalletDisconnected => SimulationEffect(s, Disconnect(s))
    case ChainReported(chainId) =>
      if chainId == s.chainId then s else ChainChanged(cfg, s, chainId)
    case SimulationReported(report) =>
      SimulationEffect(s, s.(simulationError := report))
    case ProofReturned(bytes) => ResponseReceived(s, bytes)
    case ClaimClicked => if Render(s).claimButton == Enabled then ClaimBegin(s) else s
    case ClaimSettled(outcome) => if s.loading then ClaimSettle(s, outcome) else s
    case ResetClicked => if Render(s).resetShown then SimulationEffect(s, Reset(s)) else s
  }

  function Run(cfg: ChainConfig, s: State, es: seq<Event>): (r: State)
    decreases |es|
  {
    if |es| == 0 then s else Run(cfg, Step(cfg, s, es[0]), es[1..])
  }

  /** A run of two events is the two steps in order. */
  lemma RunTwo(cfg: ChainConfig, s: State, a: Event, b: Event)
    ensures Run(cfg, s, [a, b]) == Step(cfg, Step(cfg, s, a), b)
  {
    var s1 := Step(cfg, s, a);
    assert [a, b][1..] == [b];
    assert Run(cfg, s, [a, b]) == Run(cfg, s1, [b]);
    assert [b][1..] == [];
    assert Run(cfg, s1, [b]) == Run(cfg, Step(cfg, s1, b), []);
  }

  /** The wallet library reports an address exactly while connected. */
  predicate Consistent(s: State) { s.isConnected <==> s.address.Some? }

  /** The page starts disconnected, on the connect panel, with its state
      consistent. */
  lemma MountIsConsistent(cfg: ChainConfig, q: Query, chainId: Option<int>)
    ensures Consistent(Mount(cfg, q, chainId))
    ensures Render(Mount(cfg, q, chainId)).panel == ConnectWallet
    ensures Render(Mount(cfg, q, chainId)).claimButton == Hidden
  {
  }

  lemma {:induction false} RunKeepsConsistent(cfg: ChainConfig, s: State, es: seq<Event>)
    requires Consistent(s)
    ensures Consistent(Run(cfg, s, es))
    decreases |es|
  {
    if |es| > 0 {
      RunKeepsConsistent(cfg, Step(cfg, s, es[0]), es[1..]);
    }
  }

  /** A click on an enabled claim button always starts a claim. */
  lemma EnabledClickStartsClaim(cfg: ChainConfig, s: State)
    requires Consistent(s) && Render(s).claimButton == Enabled
    ensures Step(cfg, s, ClaimClicked).loading
    ensures Render(Step(cfg, s, ClaimClicked)).claimButton == Disabled
  {
  }

  /** While a claim is in flight and has not settled, whatever else happens,
      `loading` stays up. */
  lemma {:induction false} InFlightStaysInFlight(cfg: ChainConfig, s: State, es: seq<Event>)
    requires s.loading
    requires forall i :: 0 <= i < |es| ==> !es[i].ClaimSettled?
    ensures Run(cfg, s, es).loading
    ensures Render(Run(cfg, s, es)).claimButton != Enabled
    decreases |es|
  {
    if |es| > 0 {
      var next := Step(cfg, s, es[0]);
      assert next.loading;
      InFlightStaysInFlight(cfg, next, es[1..]);
    }
  }

  /** Hence no second claim can start before the first settles: at every
      point of such a run the claim button is not enabled. */
  lemma InFlightBlocksSecondClaim(cfg: ChainConfig, s: State, es: seq<Event>)
    requires s.loading
    requires forall i :: 0 <= i < |es| ==> !es[i].ClaimSettled?
    ensures forall i :: 0 <= i <= |es| ==> Render(Run(cfg, s, es[..i])).claimButton != Enabled
  {
    forall i | 0 <= i <= |es|
      ensures Render(Run(cfg, s, es[..i])).claimButton != Enabled
    {
      InFlightStaysInFlight(cfg, s, es[..i]);
    }
  }

  /** While connected and unclaimed, a report of a new chain offers the
      switch-chain button exactly when that chain is not the required one. */
  lemma ChainReportDecidesSwitch(cfg: ChainConfig, s: State, chainId: Option<int>)
    requires s.isConnected && s.amountClaimed == "" && chainId != s.chainId
    ensures Render(Step(cfg, s, ChainReported(chainId))).switchChainShown
            <==> chainId != Some(cfg.id)
  {
  }

  /** Once the error agrees with the chain rule, chain reports keep it that
      way, whether or not they change the chain. */
  lemma {:induction false} ChainReportsKeepChainError(cfg: ChainConfig, s: State, es: seq<Event>)
    requires s.error == ChainError(cfg, s.chainId)
    requires forall i :: 0 <= i < |es| ==> es[i].ChainReported?
    ensures Run(cfg, s, es).error == ChainError(cfg, Run(cfg, s, es).chainId)
    ensures |es| > 0 ==> Run(cfg, s, es).chainId == es[|es| - 1].chainId
    decreases |es|
  {
    if |es| > 0 {
      ChainReportsKeepChainError(cfg, Step(cfg, s, es[0]), es[1..]);
    }
  }

  /** Over a run of chain reports whose first one changes the chain, the
      last report alone decides the chain and the error. */
  lemma LastChainReportDecides(cfg: ChainConfig, s: State, es: seq<Event>)
    requires |es| > 0 && es[0].ChainReported? && es[0].chainId != s.chainId
    requires forall i :: 0 <= i < |es| ==> es[i].ChainReported?
    ensures Run(cfg, s, es).chainId == es[|es| - 1].chainId
    ensures Run(cfg, s, es).error == ChainError(cfg, es[|es| - 1].chainId)
  {
    ChainReportsKeepChainError(cfg, Step(cfg, s, es[0]), es[1..]);
    assert es[1..] == [] || es[|es| - 1] == es[1..][|es[1..]| - 1];
  }

  /** A proof response received while connected, before any claim, brings up
      the claim panel and the contract call carrying that very response. */
  lemma ProofResponseReadiesClaim(cfg: ChainConfig, s: State, bytes: string)
    requires s.isConnected && s.amountClaimed == "" && bytes != ""
    ensures Render(Step(cfg, s, ProofReturned(bytes))).panel == ClaimReady
    ensures s.chainId.Some? ==>
              ContractCallInputs(Step(cfg, s, ProofReturned(bytes))).value.args == [bytes]
  {
  }

  /** A claim that throws a non-empty message keeps the response and the
      claim panel, shows the message, and leaves the claim button disabled. */
  lemma FailedClaimKeepsResponse(cfg: ChainConfig, s: State, message: string)
    requires Consistent(s) && Render(s).claimButton == Enabled && message != ""
    ensures
      var failed := Run(cfg, s, [ClaimClicked, ClaimSettled(Thrown(message))]);
      && failed.responseBytes == s.responseBytes
      && failed.amountClaimed == s.amountClaimed
      && failed.error == message
      && !failed.loading
      && failed.isConnected
      && Render(failed).panel == ClaimReady
      && Render(failed).errorShown
      && Render(failed).claimButton == Disabled
  {
    RunTwo(cfg, s, ClaimClicked, ClaimSettled(Thrown(message)));
  }

  /** Events that leave a non-empty error standing: anything but a chain
      report, a reset, a disconnect or a simulation error formatted as "". */
  predicate KeepsError(e: Event)
  {
    && !e.ChainReported?
    && !e.ResetClicked?
    && !e.WalletDisconnected?
    && !(e.SimulationReported? && e.report.Some? && e.report.value.formatted == "")
  }

  /** After a failed claim, the button stays disabled through any events that
      do not change the chain, reset or disconnect: the same-chain retry the
      page offers needs the error to be cleared by a chain change. */
  lemma {:induction false} FailedClaimStaysBlocked(cfg: ChainConfig, s: State, es: seq<Event>)
    requires s.isConnected && s.error != "" && !s.loading
    requires forall i :: 0 <= i < |es| ==> KeepsError(es[i])
    ensures Run(cfg, s, es).error != ""
    ensures Render(Run(cfg, s, es)).claimButton != Enabled
    decreases |es|
  {
    if |es| > 0 {
      var next := Step(cfg, s, es[0]);
      assert KeepsError(es[0]);
      assert next.isConnected && next.error != "" && !next.loading;
      FailedClaimStaysBlocked(cfg, next, es[1..]);
    }
  }

  /** A run of three events is the three steps in order. */
  lemma RunThree(cfg: ChainConfig, s: State, a: Event, b: Event, c: Event)
    ensures Run(cfg, s, [a, b, c]) == Step(cfg, Step(cfg, Step(cfg, s, a), b), c)
  {
    assert [a, b, c][1..] == [b, c];
    RunTwo(cfg, Step(cfg, s, a), b, c);
  }

  /** A switch away from the required chain and back clears the error of a
      failed claim. The contract call carries the chain, so the simulation
      on the required chain reports afresh (a new error object, or none),
      and the claim button comes back with the same response exactly when
      that simulation reports no error, or one formatted as "". */
  lemma SwitchAwayAndBackRetries(cfg: ChainConfig, s: State, other: Option<int>, sim: Option<SimError>)
    requires s.isConnected && s.responseBytes != "" && s.amountClaimed == "" && !s.loading
    requires s.chainId == Some(cfg.id) && other != Some(cfg.id)
    requires sim.None? || sim != s.simulationError
    ensures
      var back := Run(cfg, s, [ChainReported(other), ChainReported(Some(cfg.id)), SimulationReported(sim)]);
      && back.responseBytes == s.responseBytes
      && back.error == (if sim.Some? then sim.value.formatted else "")
      && (Render(back).claimButton == Enabled <==> sim.None? || sim.value.formatted == "")
  {
    RunThree(cfg, s, ChainReported(other), ChainReported(Some(cfg.id)), SimulationReported(sim));
  }

  /** While connected, every new simulation error object sets its message:
      the hook's first error as well as one that replaces an earlier error,
      even an earlier error with the same message, since the effect compares
      objects, not messages. */
  lemma NewSimulationErrorRerunsEffect(cfg: ChainConfig, s: State, n: nat, message: string)
    requires s.isConnected && (s.simulationError.Some? ==> s.simulationError.value.serial != n)
    ensures Step(cfg, s, SimulationReported(Some(SimError(n, message)))).error == message
  {
  }

  /** A claim whose receipt is not a success leaves the page as it was. */
  lemma OtherReceiptChangesNothing(cfg: ChainConfig, s: State)
    requires Consistent(s) && Render(s).claimButton == Enabled
    ensures Run(cfg, s, [ClaimClicked, ClaimSettled(OtherReceipt)]) == s
  {
  }

  /** A successful claim with a non-empty amount ends on the claimed panel. */
  lemma SuccessfulClaimShowsClaimed(cfg: ChainConfig, s: State, amount: string)
    requires Consistent(s) && Render(s).claimButton == Enabled && amount != ""
    ensures
      var done := Run(cfg, s, [ClaimClicked, ClaimSettled(SuccessReceipt(amount))]);
      && done.amountClaimed == amount
      && Render(done).panel == Claimed
      && Render(done).claimButton == Hidden
  {
    RunTwo(cfg, s, ClaimClicked, ClaimSettled(SuccessReceipt(amount)));
  }

  /** Once an amount is recorded and no claim is in flight, no event short of
      a reset starts another claim or changes the amount. */
  lemma {:induction false} ClaimedIsFinal(cfg: ChainConfig, s: State, es: seq<Event>)
    requires s.amountClaimed != "" && !s.loading
    requires forall i :: 0 <= i < |es| ==> !es[i].ResetClicked?
    ensures Run(cfg, s, es).amountClaimed == s.amountClaimed
    ensures !Run(cfg, s, es).loading
    ensures Render(Run(cfg, s, es)).claimButton == Hidden
    decreases |es|
  {
    if |es| > 0 {
      var next := Step(cfg, s, es[0]);
      assert next.amountClaimed == s.amountClaimed && !next.loading;
      ClaimedIsFinal(cfg, next, es[1..]);
    }
  }

  /** A wallet that disconnects by itself sends the page to the connect
      panel, but the response and amount survive for the next connection. */
  lemma DisconnectKeepsSession(cfg: ChainConfig, s: State)
    ensures
      var r := Step(cfg, s, WalletDisconnected);
      && Render(r).panel == ConnectWallet
      && r.responseBytes == s.responseBytes && r.amountClaimed == s.amountClaimed
      && r.query == s.query
  {
  }

  /** A reset, from any connected state, returns to the connect panel with no
      error, no response and no proof response left in the URL. */
  lemma ResetEndsSession(cfg: ChainConfig, s: State)
    requires s.isConnected
    ensures
      var r := Step(cfg, s, ResetClicked);
      && Render(r).panel == ConnectWallet
      && !Render(r).errorShown && !Render(r).resetShown
      && r.responseBytes == "" && r.amountClaimed == "" && r.error == ""
      && GetAll(r.query, ResponseParam) == []
  {
  }
}

=== FILE: transitions.dfy ===
/** The page's transitions, one pure function per event: the two effects, the
    proof widget's callback, the claim handler, the reset handler and the
    wallet's connect and disconnect. When an effect runs is decided in
    `Traces.Step`. Library
    results (formatted errors, the formatted claimed amount) arrive as
    parameters. */
module Transitions {
  import opened Options
  import opened UrlQuery
  import opened Session

  /** The error the chain effect leaves for the chain the wallet reports. An
      absent chain never equals the required one. */
  function ChainError(cfg: ChainConfig, chainId: Option<int>): (e: string)
    ensures e == "" <==> chainId == Some(cfg.id)
    ensures e != "" ==> e == MismatchMessage(cfg) && OffersSwitch(e)
  {
    if chainId != Some(cfg.id) then MismatchMessage(cfg) else ""
  }

  /** The chain effect, run on mount and whenever the reported chain
      changes: it records the chain and overwrites the error, touching
      nothing else. */
  function ChainChanged(cfg: ChainConfig, s: State, chainId: Option<int>): (r: State)
    ensures r.chainId == chainId
    ensures r.error == ChainError(cfg, chainId)
    ensures r.error == "" <==> chainId == Some(cfg.id)
    ensures r.error != "" ==> r.error == MismatchMessage(cfg) && OffersSwitch(r.error)
    ensures r == s.(chainId := chainId, error := r.error)
  {
    s.(chainId := chainId, error := ChainError(cfg, chainId))
  }

  /** The page after its first render: the initial state, then the chain
      effect's mount-time run for whatever chain the network hook reports
      (an absent one before any wallet is connected). */
  function Mount(cfg: ChainConfig, q: Query, chainId: Option<int>): (r: State)
    ensures !r.isConnected && r.address.None? && !r.loading
    ensures r.responseBytes == "" && r.amountClaimed == "" && r.query == q
    ensures r.chainId == chainId
    ensures r.error == ChainError(cfg, chainId)
    ensures r.error == "" <==> chainId == Some(cfg.id)
    ensures r.error != "" ==> r.error == MismatchMessage(cfg) && OffersSwitch(r.error)
  {
    ChainChanged(cfg, Initial(q), chainId)
  }

  /** The simulation-error effect's body, for the error the simulation hook
      reports, or None when the simulation raised none. */
  function SimulationErrorReported(s: State, report: Option<SimError>): (r: State)
    ensures r.error != s.error ==> s.isConnected && report.Some?
    ensures s.isConnected && report.Some? ==> r.error == report.value.formatted
    ensures r == s.(error := r.error)
  {
    match report
    case None => s
    case Some(e) => if !s.isConnected then s else s.(error := e.formatted)
  }

  /** What `usePrepareContractWrite` is asked to simulate. */
  datatype CallInputs = CallInputs(functionName: string, args: seq<string>, chainId: int)

  /** The `contractCallInputs` guard: a call is prepared only when there is a
      response and a chain; otherwise the inputs are empty. */
  function ContractCallInputs(s: State): (r: Option<CallInputs>)
    ensures r.Some? <==> s.responseBytes != "" && s.chainId.Some?
    ensures r.Some? ==> r.value.functionName == "claimWithSismo"
    ensures r.Some? ==> r.value.args == [s.responseBytes] && r.value.chainId == s.chainId.value
  {
    if s.responseBytes != "" && s.chainId.Some? then
      Some(CallInputs("claimWithSismo", [s.responseBytes], s.chainId.value))
    else None
  }

  /** The proof widget's `onResponseBytes` callback: it stores the response
      as given, with no check of which address it was requested for. */
  function ResponseReceived(s: State, bytes: string): (r: State)
    ensures r.responseBytes == bytes
    ensures r == s.(responseBytes := r.responseBytes)
  {
    s.(responseBytes := bytes)
  }

  /** How the awaited part of a claim ends. `SuccessReceipt` carries the
      claimed value as the page formats it from the receipt's first log;
      `OtherReceipt` covers a receipt whose status is not success and the
      case where no transaction was sent; `Thrown` carries the formatted
      error of anything thrown on the way (chain switch, signature,
      inclusion wait, event decoding). */
  datatype ClaimOutcome =
    | SuccessReceipt(amount: string)
    | OtherReceipt
    | Thrown(message: string)

  /** The synchronous start of `claimAirdrop`: without an address it returns
      at once; otherwise it clears the error and raises `loading`. */
  function ClaimBegin(s: State): (r: State)
    ensures s.address.None? ==> r == s
    ensures s.address.Some? ==> r.loading && r.error == ""
    ensures r == s.(loading := r.loading, error := r.error)
  {
    if s.address.None? then s else s.(error := "", loading := true)
  }

  /** The end of `claimAirdrop` once its awaits have settled: the outcome's
      effect, then `loading` lowered in every case. */
  function ClaimSettle(s: State, outcome: ClaimOutcome): (r: State)
    ensures !r.loading
    ensures outcome.Thrown? ==> r.error == outcome.message && r.amountClaimed == s.amountClaimed
    ensures outcome.SuccessReceipt? ==> r.amountClaimed == outcome.amount && r.error == s.error
    ensures outcome.OtherReceipt? ==> r == s.(loading := false)
    ensures r == s.(loading := false, error := r.error, amountClaimed := r.amountClaimed)
  {
    match outcome
    case SuccessReceipt(amount) => s.(amountClaimed := amount, loading := false)
    case OtherReceipt => s.(loading := false)
    case Thrown(message) => s.(error := message, loading := false)
  }

  /** A whole claim attempt with no other event in between. When the chain
      is wrong at click time the handler first asks the wallet to switch:
      a switch that fails is the `Thrown` outcome, and one that succeeds
      reaches the page only as a later chain report (`Traces.Step`), so the
      attempt itself never changes the chain. */
  function ClaimAirdrop(s: State, outcome: ClaimOutcome): (r: State)
    ensures s.address.None? ==> r == s
    ensures s.address.Some? ==> !r.loading
    ensures s.address.Some? && outcome.Thrown? ==>
              r.error == outcome.message && r.amountClaimed == s.amountClaimed
    ensures s.address.Some? && outcome.SuccessReceipt? ==>
              r.amountClaimed == outcome.amount && r.error == ""
    ensures s.address.Some? && outcome.OtherReceipt? ==> r == s.(loading := false, error := "")
    ensures r.responseBytes == s.responseBytes && r.isConnected == s.isConnected
    ensures r.address == s.address && r.chainId == s.chainId && r.query == s.query
  {
    if s.address.None? then s else ClaimSettle(ClaimBegin(s), outcome)
  }

  /** The reset handler: disconnect the wallet, clear the session's strings
      and drop the proof response from the URL query. */
  function Reset(s: State): (r: State)
    ensures !r.isConnected && r.address.None?
    ensures r.amountClaimed == "" && r.responseBytes == "" && r.error == ""
    ensures r.query == Delete(s.query, ResponseParam)
    ensures GetAll(r.query, ResponseParam) == []
    ensures forall key :: key != ResponseParam ==> GetAll(r.query, key) == GetAll(s.query, key)
    ensures r.chainId == s.chainId && r.loading == s.loading
    ensures r.simulationError == s.simulationError
    ensures ContractCallInputs(r).None?
  {
    s.(isConnected := false, address := None,
       amountClaimed := "", responseBytes := "", error := "",
       query := Delete(s.query, ResponseParam))
  }

  /** Resetting a reset session changes nothing more. */
  lemma ResetIdempotent(s: State)
    ensures Reset(Reset(s)) == Reset(s)
  {
    DeleteIdempotent(s.query, ResponseParam);
  }

  /** Reset leaves a query that never carried a proof response as it was. */
  lemma ResetKeepsPlainQuery(s: State)
    requires GetAll(s.query, ResponseParam) == []
    ensures Reset(s).query == s.query
  {
    DeleteAbsent(s.query, ResponseParam);
  }

  /** The account update the wallet library reports on connection. */
  function Connect(s: State, address: string): (r: State)
    ensures r.isConnected && r.address == Some(address)
    ensures r == s.(isConnected := r.isConnected, address := r.address)
  {
    s.(isConnected := true, address := Some(address))
  }

  /** The account update the wallet library reports when the wallet
      disconnects by itself (outside the reset handler): the page keeps its
      own state hooks, so the response, amount and error survive. */
  function Disconnect(s: State): (r: State)
    ensures !r.isConnected && r.address.None?
    ensures r == s.(isConnected := r.isConnected, address := r.address)
  {
    s.(isConnected := false, address := None)
  }
}

=== FILE: url_query.dfy ===
/** The page URL's query string, as the ordered list of key/value pairs that
    a URLSearchParams object keeps. Keys may repeat. */
module UrlQuery {

  datatype Param = Param(key: string, value: string)

  type Query = seq<Param>

  /** The values bound to `key`, in query order (URLSearchParams.getAll). */
  function GetAll(q: Query, key: string): (vs: seq<string>)
    ensures |vs| <= |q|
    ensures forall v :: v in vs ==> Param(key, v) in q
  {
    if |q| == 0 then []
    else if q[0].key == key then [q[0].value] + GetAll(q[1..], key)
    else GetAll(q[1..], key)
  }

  /** URLSearchParams.delete(key): every pair named `key` goes, every other
      pair stays, in its original order. */
  function Delete(q: Query, key: string): (r: Query)
    ensures GetAll(r, key) == []
    ensures forall other :: other != key ==> GetAll(r, other) == GetAll(q, other)
    ensures |r| + |GetAll(q, key)| == |q|
    ensures forall p :: p in r ==> p in q && p.key != key
  {
    if |q| == 0 then []
    else
      var rest := Delete(q[1..], key);
      if q[0].key == key then rest
      else
        assert ([q[0]] + rest)[1..] == rest;
        [q[0]] + rest
  }

  /** On a single pair, delete drops it exactly when it carries the key. */
  lemma DeleteSingle(p: Param, key: string)
    ensures Delete([p], key) == if p.key == key then [] else [p]
  {
  }

  /** Delete works pair by pair: deleting from a concatenation is
      concatenating the deletions. With `DeleteSingle` this fixes the
      result completely, so the pairs that stay keep their relative order
      across all keys. */
  lemma {:induction false} DeleteAppend(q1: Query, q2: Query, key: string)
    ensures Delete(q1 + q2, key) == Delete(q1, key) + Delete(q2, key)
    decreases |q1|
  {
    if |q1| > 0 {
      assert (q1 + q2)[0] == q1[0];
      assert (q1 + q2)[1..] == q1[1..] + q2;
      DeleteAppend(q1[1..], q2, key);
    } else {
      assert q1 + q2 == q2;
    }
  }

  /** Deleting a key the query does not hold leaves the query as it was. */
  lemma {:induction false} DeleteAbsent(q: Query, key: string)
    requires GetAll(q, key) == []
    ensures Delete(q, key) == q
  {
    if |q| > 0 {
      assert q[0].key != key;
      DeleteAbsent(q[1..], key);
      assert q == [q[0]] + q[1..];
    }
  }

  /** Deleting twice is deleting once. */
  lemma DeleteIdempotent(q: Query, key: string)
    ensures Delete(Delete(q, key), key) == Delete(q, key)
  {
  }
}
